=== FILE: README.md ===
# Puca Power rules engine, in Dafny

Puca Power is a user script for PucaTrade's trade page. On every refresh
cycle it reloads the trade table and the user's own outgoing trades. It then
aggregates the rows per member and raises alerts for members worth trading
with. It colours and reveals those members' rows, hides cheap cards of
everyone else, and schedules the next reload.

This project models the rules engine of the script's `pucaPower` object as
pure functions over immutable data:

- `trades.dfy` (module `Trades`): the records of the trade table
  (`tableData` rows), the per-member aggregate (`memberData`), the
  per-member outgoing aggregate (`outgoingTrades`), and the settings with
  their defaults.
- `aggregation.dfy` (module `Aggregation`): `parseTradeTable` and the
  success callback of `loadOutgoingTrades`. Both loops are stated against
  reference definitions: the rows of one member (`RowsOf`) and their point
  sum (`SumPts`).
- `alerts.dfy` (module `Alerts`): `checkForAlerts`. It covers the trade
  value, the bundle and outgoing rules, the staged candidate per member,
  the sort by descending weight, and the colour and reveal of each row.
- `filtering.dfy` (module `Filtering`): `filterTrades`, its hidden-row
  count, and the "Total" label.
- `config.dfy` (module `Config`): `safeParse`, `loadSettingsFromPage` with
  its ten-second floor on the reload interval, and the form view written by
  `applySettingsToPage`.
- `urls.dfy` (module `Urls`): the `indexOf` cascade that the `.ajaxSend`
  and `.ajaxComplete` handlers use to classify a request.
- `cycle.dfy` (module `Cycle`): the engine state, covering these parts:
  - the two load flags that join the table load and the outgoing fetch;
  - `reloadComplete`, `go` and `stop`;
  - the reload timer, kept as a handle flag plus a count of scheduled
    callbacks that are still alive;
  - the request events that drive the state, folded over a trace by `Run`.

`for…in` over `memberData` visits keys in an order the program does not
control. `CheckForAlerts` therefore takes the visiting order as a
parameter. The engine passes the first-appearance order of the table,
`KeyOrder`. Two lemmas prove that the order changes neither the flags nor
the multiset of queued alerts.

`checkForAlerts` only ever sets flags. On a freshly parsed table every flag
starts false, so each flag then says exactly whether its rule fired
(`FreshMemberFlags`, `EvaluatedFresh`, `JoinTableFirst`, `JoinOutgoingFirst`).

Three points where the code promises less than one might expect; the model
follows the code:

- The alert sort (pucaPower.js:558) compares by `b.weight - a.weight`
  alone, with no tie-break. So `SortByWeight` promises only a
  non-increasing permutation of the queue, and nothing about the order of
  equal weights.
- Nothing bounds the weights: points come from `parseInt` of page text and
  are not checked for sign. The model keeps weights as plain `int`.
- The comment at pucaPower.js:638-639 says `reloadComplete` runs only once
  per cycle. The two load flags, though, are set false only by the
  `.ajaxSend` handler (pucaPower.js:691 and 704). So a further completion
  before the next send evaluates again: `ReloadComplete` is guarded only by
  both flags being set. The join lemmas prove "exactly once" for the
  send–complete–complete sequence of one cycle.

`Step` and `Run` take the `go` they run as a parameter (`Engine`): the
script's (`Script`, which forgets a pending reload, see Findings) or the
corrected one (`Corrected`). The table half of the state invariant and the
join lemmas hold for both. The timer half, at most one live reload and it
the one the handle names, and Stop being final hold only for `Corrected`.

## Model

| member | source | states |
|---|---|---|
| Aggregation.MemberData | pucaPower.js:315-362 | `memberData` is rebuilt from empty: its keys are exactly the members named in the rows; each entry counts that member's rows, sums their card points, takes the member's points from the member's first row, and starts with every flag false |
| Aggregation.ParseTradeTable | pucaPower.js:306-363 | with auto-match off both structures are left exactly as they were; otherwise `tableData` is the rendered rows and `memberData` is their per-member aggregate, with nothing kept from the previous cycle |
| Aggregation.KeyOrder | pucaPower.js:347-349 | the insertion order of `memberData`'s keys lists every member of the table exactly once and nothing else |
| Aggregation.OutgoingLedger | pucaPower.js:385-404 | `outgoingTrades` is rebuilt from empty: a member has an entry exactly when some unshipped row names them, holding their row count and point sum |
| Aggregation.LoadOutgoingTrades | pucaPower.js:377-406 | a successful fetch replaces the ledger by the aggregate of the response; a failed fetch leaves the previous ledger untouched |
| Alerts.TradeValue | pucaPower.js:476-477 | a bundle is worth the lesser of the points requested and the member's balance: at most each, and equal to one of them |
| Alerts.CheckMember | pucaPower.js:476-519 | flags are only ever set, each by its rule; a candidate is queued exactly when either rule fires; it carries the member's name, points, card count and total; its style is a warning exactly when the total exceeds the balance; an outgoing candidate replaces the bundle one and weighs trade value plus outstanding points; a lone bundle candidate weighs the trade value |
| Alerts.CheckMembers | pucaPower.js:467-520 | the member loop sets every visited member's flags by the rules, leaves the others alone, and queues exactly the visited members' candidates, at most one per member |
| Alerts.SortByWeight | pucaPower.js:557-558 | the sorted alerts are a permutation of the queue, in non-increasing weight, still one per member |
| Alerts.CheckForAlerts | pucaPower.js:453-563 | over any enumeration of `memberData`: every member's flags are set by the rules; the displayed alerts are exactly the members' candidates, one per member, in non-increasing weight |
| Alerts.FreshMemberFlags | pucaPower.js:481-501 | from an entry with all flags false: `hasBundleAlert` iff the bundle rule fires, `hasOutgoingAlert` iff the outgoing rule fires, `hasAlert` iff either does |
| Alerts.FlagsStayConsistent | pucaPower.js:481-501 | `hasAlert` stays equal to `hasBundleAlert` or `hasOutgoingAlert` through the evaluation |
| Alerts.OrderIrrelevantFlags | pucaPower.js:468-469 | two enumerations of `memberData` give identical flagged entries |
| Alerts.OrderIrrelevantAlerts | pucaPower.js:468-469 | two enumerations of `memberData` give the same multiset of displayed alerts |
| Alerts.Mark | pucaPower.js:528-547 | a row is revealed exactly when its member has an alert; only alerted rows are coloured; the outgoing colour wins over the bundle colour, which applies only when the outgoing one does not; otherwise the colour is left alone |
| Alerts.MarkRows | pucaPower.js:524-549 | every row of `tableData` gets its member's mark |
| Alerts.BundleExample | pucaPower.js:482-493 | 600 points and cards worth 300 + 250 at threshold 500 give one bundle alert of weight 550 without a warning |
| Alerts.OutgoingExample | pucaPower.js:499-512 | 50 points requested from a 1000-point member owed 80 gives an outgoing alert of weight 130, and both flags are set |
| Alerts.CappedBundleExample | pucaPower.js:476-482 | 300 points requested from a 100-point member do not reach threshold 200: no alert |
| Filtering.FilterTrades | pucaPower.js:579-594 | rows of alerted members are never hidden; any other row is hidden exactly when the value filter is on and its card is below the minimum; `filterQty` is the number of hidden rows, at most the row count |
| Filtering.VisibleTotal | pucaPower.js:600-601 | the "Total" label lies between 0 and the row count and equals the number of rows left visible |
| Filtering.FilterOffHidesNothing | pucaPower.js:588-592 | with the value filter off nothing is hidden and the total is the row count |
| Filtering.FilterExample | pucaPower.js:583-593 | at minimum 50, a 30-point card of a member without an alert is hidden and counted, and a 10-point card of an alerted member stays |
| Config.SafeParse | pucaPower.js:179-184 | a positive number is kept; a non-positive one becomes the second fallback; an unparseable input takes the first fallback, or the second if that is not positive; with a positive second fallback the result is always positive |
| Config.LoadSettingsFromPage | pucaPower.js:186-225 | the reload interval is at least 10 s: an input of at least 10 is kept, a smaller positive input gives 10, a non-positive one the default 60; an unparseable input falls back to the current interval, again floored at 10 and replaced by 60 when not positive; thresholds go through `safeParse` against the current settings and the defaults; switches and colours are copied from the form |
| Config.ApplySettingsToPage | pucaPower.js:233-257 | for sanitized settings, the form it fills reads back as exactly those settings, whatever settings were in force before |
| Config.ReloadAfterApply | pucaPower.js:233-257 | showing sanitized settings on the form and reading them back yields the same settings |
| Config.LoadIdempotent | pucaPower.js:176-229 | reading the form a second time after its values were written back changes nothing |
| Urls.Contains | pucaPower.js:690 | `indexOf(sub) !== -1` holds exactly when `sub` occurs somewhere in the URL |
| Urls.OutgoingUrlKind | pucaPower.js:688-693 | the outgoing fetch's own request is recognised as such |
| Urls.Classify | pucaPower.js:690-707 | a request is the outgoing feed exactly when its URL contains `/trades/active`; a dialog under `/trades/` exactly when it contains `/trades/` but not `/trades/active`; a table load exactly when it contains `/trades` but not `/trades/`; unrelated exactly when it does not mention `/trades` |
| Urls.NestedPatterns | pucaPower.js:690-707 | each pattern of the cascade extends the next, so a URL matching an earlier test also matches every later one |
| Urls.TableUrlKind | pucaPower.js:700-703 | `/trades` followed by a query without a slash is recognised as a trade-table load |
| Cycle.Init | pucaPower.js:44-79 | the engine starts not running, with no reload pending or alive, both load flags false, an empty table and outgoing ledger, and the state invariant holding |
| Cycle.Evaluate | pucaPower.js:642-644 | evaluation keeps the rows and the set of members, sets each member's flags by the rules, and keeps the flags consistent |
| Cycle.Show | pucaPower.js:552-601 | the notes are the queued alerts in queue order, followed by the "Filtered N" note exactly when the filter hid rows; the hidden rows are the filter's and the marks the colouring loop's; every alerted row is revealed and not hidden; the total is the row count less the rows the filter hid; sound and title are requested exactly when an alert is queued |
| Cycle.EvaluateShowsCandidates | pucaPower.js:552-601 | the notes of an evaluation start with one note per queued alert, each the candidate of a member of the table, one per member, every candidate shown, highest weight first; then the "Filtered N" note if the filter hid rows |
| Cycle.ReloadComplete | pucaPower.js:637-651 | nothing happens unless both loads are complete; then exactly one evaluation runs, the table and page become that evaluation of the current settings, rows and outgoing ledger, and a reload is scheduled exactly when running, the interval is positive and no reload is pending |
| Cycle.Stop | pucaPower.js:654-667 | clears `running` and the handle, cancelling only the reload the handle names; when that was the only callback alive, none is alive afterwards; settings, auto-match, table, outgoing ledger, page and load flags are untouched |
| Cycle.GoAsWritten | pucaPower.js:609-633 | `go` as written: running, auto-match on, settings re-read from the form, the handle forgotten while every scheduled callback stays alive; table, outgoing ledger, page and load flags untouched |
| Cycle.Go | pucaPower.js:609-633 | `go` with the pending reload cleared: running, auto-match on, settings re-read from the form, no reload callback alive; table, outgoing ledger, page and load flags untouched |
| Cycle.GoBy | pucaPower.js:609-633 | either `go` leaves the engine running with auto-match on, settings re-read from the form and no handle, touching neither the table, the ledger, the page nor the load flags; the script's keeps every callback alive, the corrected one leaves no reload alive |
| Cycle.FireTimer | pucaPower.js:609-648 | a scheduled reload is spent and runs `go`: the engine runs with auto-match on, no handle and the settings re-read from the form, while table, outgoing ledger, page, load flags and evaluation count are untouched; with none alive nothing happens; with the corrected `go` the timer invariant is kept |
| Cycle.OnSend | pucaPower.js:681-708 | a table load clears both load flags; the outgoing fetch clears its own; any other request changes nothing |
| Cycle.OnComplete | pucaPower.js:712-738 | each completion records its data and sets its own flag; other requests change nothing; at most one evaluation runs, and only with both flags set |
| Cycle.Step | pucaPower.js:681-738 | every event, with either `go`, keeps `memberData` keyed by the table's members with consistent flags; with the corrected `go` it also keeps at most one live reload, the one the handle names; only a completion with both loads in can evaluate |
| Cycle.Run | pucaPower.js:681-738 | any trace of events keeps the table invariant with either `go`, and the timer invariant with the corrected one |
| Cycle.JoinTableFirst | pucaPower.js:637-644 | send, table completion, outgoing completion, with auto-match on or off: no evaluation after the first completion and exactly one after the second, on the parsed table (the previous one when auto-match is off) and this cycle's outgoing ledger, whatever query the outgoing request carries; the page shows that evaluation; with auto-match on, the rows are the rendered ones and each member's flags say exactly which rules fired |
| Cycle.JoinOutgoingFirst | pucaPower.js:637-644 | the same with the outgoing fetch completing first |
| Cycle.EvaluatedFresh | pucaPower.js:481-501 | evaluating a freshly parsed table leaves each member's flags equal to whether its rules fired |
| Cycle.IdleUntilStart | pucaPower.js:44-79 | from the initial state, no sequence of events without Start sets the engine running or schedules a reload |
| Cycle.StoppedStaysStopped | pucaPower.js:646-666 | stopped with no timer alive, whichever `go` is used, no sequence of events other than Start sets the engine running or schedules a reload |
| Cycle.StopIsFinal | pucaPower.js:654-667 | with the corrected `go`, from any state the engine reaches, Stop followed by any events other than Start leaves the engine stopped |
| Cycle.GoAsWrittenOrphansTimer | pucaPower.js:615-616 | running the script's `go`: Start while a reload is pending, one load, then Stop: two reloads are alive before Stop, the engine is stopped after it, and the forgotten reload firing sets it running again |
| Cycle.GoClearsPendingReload | pucaPower.js:615-616 | running the corrected `go`, the same events leave one reload before Stop and none after it, and a timer event leaves the engine stopped |

## Left out

- Reading the DOM: rows arrive already parsed, with `parseInt` of a cell as
  an `int`; `PageInputs` carries `parseInt` of each form input, with `None`
  for `NaN`.
- Names that collide with `Object.prototype` properties (`constructor`,
  `__proto__`, …) as `memberData` keys are not modelled; a map has no such
  keys.
- `for…in` enumerates integer-like keys first in ascending order.
  `KeyOrder` uses insertion order throughout. Only the order of
  equal-weight alerts can depend on this, and the model promises nothing
  about that order.
- HTTP and asynchrony: requests and their completions are events in a
  trace, in any interleaving; `loadTableData` is a `Send` event after `go`.
  The table a completion parses is given with the event.
- Timer delays: `setTimeout` is modelled by which callbacks are alive, not
  when they fire.
- `localStorage` persistence, the settings-version purge,
  `loadDefaultSettings`, `updatePageState`, and the widget side of
  `applySettingsToPage` (sound file, title text) are not modelled.
  `ApplySettingsToPage` gives only the view of the form that
  `loadSettingsFromPage` reads back.
- The alert sound, the title flash, `hasPlayedSound` and note markup are
  not modelled: the display keeps the alert records and a single `notify`
  flag. `hasAlerted`, written by `stop` and read nowhere, is not modelled
  either.
- The `hasAlert` data attribute on rows, and colour or visibility left on
  the page by earlier cycles, are not modelled: a mark says what this cycle
  does to each row.
- `setup`, `setupListeners` wiring, the infinite scroll, fancybox and debug
  logging are not modelled.
- Cycle.Run: the timer invariant (at most one live reload) is promised
  only with the corrected `go`; with the script's `go` two reloads can be
  alive (see Findings).
- Cycle.StopIsFinal: stated for the corrected `go` only; with the
  script's `go` a forgotten reload restarts the engine after Stop
  (`GoAsWrittenOrphansTimer`).

## Findings

| source | as written | input that shows it | evidently intended | confidence | as-written member | corrected member |
|---|---|---|---|---|---|---|
| pucaPower.js:615-616 | `go` sets `reloadTimeout` to null without `clearTimeout`, so a reload pending when Start is pressed stays scheduled with no handle; the next cycle schedules another, and `stop` cancels only that one | running with a reload pending, press Start, let the table and outgoing loads complete, press Stop: the forgotten reload fires later, calls `go` and the engine runs again | Stop always ends refreshing: the pending reload is cleared before its handle is dropped | not executed; medium | Cycle.GoAsWrittenOrphansTimer | Cycle.GoClearsPendingReload |

=== FILE: aggregation.dfy ===
/**
 * The two per-cycle folds: the trade table into `tableData` and `memberData`,
 * and the outgoing listing into `outgoingTrades`. Both start from the empty map.
 */
module Aggregation {
  import opened Optional
  import opened Trades

  // ----- Reference definitions, independent of the folds -----

  /** The rows, in table order, whose member (as projected by `member`) is `name`. */
  ghost function RowsOf<R>(rows: seq<R>, member: R -> string, name: string): seq<R>
    decreases |rows|
  {
    if |rows| == 0 then []
    else (if member(rows[0]) == name then [rows[0]] else []) + RowsOf(rows[1..], member, name)
  }

  /** The sum of the card points of some rows. */
  ghost function SumPts<R>(rows: seq<R>, pts: R -> int): int
    decreases |rows|
  {
    if |rows| == 0 then 0 else pts(rows[0]) + SumPts(rows[1..], pts)
  }

  function TradeMember(r: TradeRow): string { r.memberName }
  function TradePts(r: TradeRow): int { r.cardPts }
  function OutMember(r: OutgoingRow): string { r.memberName }
  function OutPts(r: OutgoingRow): int { r.cardPts }

  lemma {:induction false} RowsOfSnoc<R>(rows: seq<R>, x: R, member: R -> string, name: string)
    ensures RowsOf(rows + [x], member, name)
         == RowsOf(rows, member, name) + (if member(x) == name then [x] else [])
    decreases |rows|
  {
    if |rows| > 0 {
      assert (rows + [x])[1..] == rows[1..] + [x];
      RowsOfSnoc(rows[1..], x, member, name);
    } else {
      assert rows + [x] == [x];
    }
  }

  lemma {:induction false} SumPtsSnoc<R>(rows: seq<R>, x: R, pts: R -> int)
    ensures SumPts(rows + [x], pts) == SumPts(rows, pts) + pts(x)
    decreases |rows|
  {
    if |rows| > 0 {
      assert (rows + [x])[1..] == rows[1..] + [x];
      SumPtsSnoc(rows[1..], x, pts);
    } else {
      assert rows + [x] == [x];
    }
  }

  /** `m` is what one cycle's rows say about member `name`: one entry per
      member, counting its rows, summing their points, taking the member's
      balance from the first of them, with no alert flag set. */
  ghost predicate AggregatesMember(m: Member, rows: seq<TradeRow>, name: string) {
    var mine := RowsOf(rows, TradeMember, name);
    && mine != []
    && m == Member(mine[0].memberPts, |mine|, SumPts(mine, TradePts), false, false, false)
  }

  ghost predicate AggregatesOutgoing(o: Outgoing, rows: seq<OutgoingRow>, name: string) {
    var mine := RowsOf(rows, OutMember, name);
    && mine != []
    && o == Outgoing(|mine|, SumPts(mine, OutPts))
  }

  // ----- parseTradeTable -----

  /** One iteration of the row loop on `memberData`: a new entry for a
      member's first row, otherwise one more card and its points. */
  function AddRow(members: map<string, Member>, row: TradeRow): map<string, Member> {
    if row.memberName !in members then
      members[row.memberName := Member(row.memberPts, 1, row.cardPts, false, false, false)]
    else
      var m := members[row.memberName];
      members[row.memberName := m.(cardQty := m.cardQty + 1, totalCardPts := m.totalCardPts + row.cardPts)]
  }

  /** `memberData` after the row loop, started from the empty map. */
  function MemberData(rows: seq<TradeRow>): (r: map<string, Member>)
    ensures r.Keys == NameSet(rows)
    ensures forall n :: n in r ==> AggregatesMember(r[n], rows, n)
    decreases |rows|
  {
    if |rows| == 0 then map[]
    else
      var prefix := rows[..|rows| - 1];
      var last := rows[|rows| - 1];
      assert rows == prefix + [last];
      var r := AddRow(MemberData(prefix), last);
      MemberDataStep(MemberData(prefix), prefix, last);
      r
  }

  lemma MemberDataStep(before: map<string, Member>, prefix: seq<TradeRow>, last: TradeRow)
    requires before.Keys == NameSet(prefix)
    requires forall n :: n in before ==> AggregatesMember(before[n], prefix, n)
    ensures AddRow(before, last).Keys == NameSet(prefix + [last])
    ensures forall n :: n in AddRow(before, last) ==> AggregatesMember(AddRow(before, last)[n], prefix + [last], n)
  {
    var rows := prefix + [last];
    var r := AddRow(before, last);
    assert NameSet(rows) == NameSet(prefix) + {last.memberName} by {
      assert forall x :: x in rows <==> x in prefix || x == last;
    }
    forall n | n in r
      ensures AggregatesMember(r[n], rows, n)
    {
      RowsOfSnoc(prefix, last, TradeMember, n);
      var mine := RowsOf(prefix, TradeMember, n);
      if n == last.memberName {
        SumPtsSnoc(mine, last, TradePts);
        if n !in before {
          RowsOfAbsent(prefix, TradeMember, n);
          assert RowsOf(rows, TradeMember, n) == [last];
          assert SumPts([last], TradePts) == last.cardPts;
        } else {
          assert AggregatesMember(before[n], prefix, n);
          assert (mine + [last])[0] == mine[0];
        }
      } else {
        assert RowsOf(rows, TradeMember, n) == mine;
        assert r[n] == before[n];
      }
    }
  }

  /** A name with no row has no rows picked. */
  lemma {:induction false} RowsOfAbsent<R>(rows: seq<R>, member: R -> string, name: string)
    requires forall x :: x in rows ==> member(x) != name
    ensures RowsOf(rows, member, name) == []
    decreases |rows|
  {
    if |rows| > 0 {
      assert rows[0] in rows;
      assert forall x :: x in rows[1..] ==> x in rows;
      RowsOfAbsent(rows[1..], member, name);
    }
  }

  /** `tableData` and `memberData`, which are always replaced together. */
  datatype Table = Table(rows: seq<TradeRow>, members: map<string, Member>)

  /** parseTradeTable: with the site's auto-match control off it leaves both
      structures as they were; otherwise it rebuilds both from the rendered rows,
      keeping nothing of the previous cycle. */
  function ParseTradeTable(previous: Table, rendered: seq<TradeRow>, autoMatch: bool): (r: Table)
    ensures !autoMatch ==> r == previous
    ensures autoMatch ==> r.rows == rendered
    ensures autoMatch ==> r.members.Keys == NameSet(rendered)
    ensures autoMatch ==> forall n :: n in r.members ==> AggregatesMember(r.members[n], rendered, n)
  {
    if !autoMatch then previous
    else Table(rendered, MemberData(rendered))
  }

  /** The order in which the row loop first inserts each member's key, which
      is the order a `for…in` loop over `memberData` visits them. */
  function KeyOrder(rows: seq<TradeRow>): (r: seq<string>)
    ensures Enumerates(r, NameSet(rows))
    decreases |rows|
  {
    if |rows| == 0 then []
    else
      var prefix := rows[..|rows| - 1];
      var last := rows[|rows| - 1];
      assert rows == prefix + [last];
      assert forall x :: x in rows <==> x in prefix || x == last;
      var p := KeyOrder(prefix);
      if last.memberName in p then p else p + [last.memberName]
  }

  // ----- loadOutgoingTrades -----

  function AddOutgoing(ledger: map<string, Outgoing>, row: OutgoingRow): map<string, Outgoing> {
    if row.memberName !in ledger then
      ledger[row.memberName := Outgoing(1, row.cardPts)]
    else
      var o := ledger[row.memberName];
      ledger[row.memberName := Outgoing(o.cardQty + 1, o.totalCardPts + row.cardPts)]
  }

  /** `outgoingTrades` after the loop over the unshipped rows, started from the empty map. */
  function OutgoingLedger(rows: seq<OutgoingRow>): (r: map<string, Outgoing>)
    ensures forall n :: n in r <==> RowsOf(rows, OutMember, n) != []
    ensures forall n :: n in r ==> AggregatesOutgoing(r[n], rows, n)
    decreases |rows|
  {
    if |rows| == 0 then map[]
    else
      var prefix := rows[..|rows| - 1];
      var last := rows[|rows| - 1];
      assert rows == prefix + [last];
      var r := AddOutgoing(OutgoingLedger(prefix), last);
      OutgoingLedgerStep(OutgoingLedger(prefix), prefix, last);
      r
  }

  lemma OutgoingLedgerStep(before: map<string, Outgoing>, prefix: seq<OutgoingRow>, last: OutgoingRow)
    requires forall n :: n in before <==> RowsOf(prefix, OutMember, n) != []
    requires forall n :: n in before ==> AggregatesOutgoing(before[n], prefix, n)
    ensures forall n :: n in AddOutgoing(before, last) <==> RowsOf(prefix + [last], OutMember, n) != []
    ensures forall n :: n in AddOutgoing(before, last) ==> AggregatesOutgoing(AddOutgoing(before, last)[n], prefix + [last], n)
  {
    var rows := prefix + [last];
    var r := AddOutgoing(before, last);
    forall n
      ensures n in r <==> RowsOf(rows, OutMember, n) != []
      ensures n in r ==> AggregatesOutgoing(r[n], rows, n)
    {
      RowsOfSnoc(prefix, last, OutMember, n);
      var mine := RowsOf(prefix, OutMember, n);
      if n == last.memberName {
        SumPtsSnoc(mine, last, OutPts);
        if n !in before {
          assert mine == [];
          assert RowsOf(rows, OutMember, n) == [last];
          assert SumPts([last], OutPts) == last.cardPts;
        } else {
          assert AggregatesOutgoing(before[n], prefix, n);
        }
      } else {
        assert RowsOf(rows, OutMember, n) == mine;
      }
    }
  }

  /** The `$.get('/trades/active')` success callback: a response replaces the
      ledger wholesale; a failed fetch never runs the callback, so the
      previous ledger stays. */
  function LoadOutgoingTrades(previous: map<string, Outgoing>, response: Option<seq<OutgoingRow>>): (r: map<string, Outgoing>)
    ensures response.None? ==> r == previous
    ensures response.Some? ==> forall n :: n in r <==> RowsOf(response.value, OutMember, n) != []
    ensures response.Some? ==> forall n :: n in r ==> AggregatesOutgoing(r[n], response.value, n)
  {
    match response
    case None => previous
    case Some(rows) => OutgoingLedger(rows)
  }
}

=== FILE: alerts.dfy ===
/**
 * checkForAlerts: the bundle and outgoing rules per member, the queue of
 * pending alerts sorted by weight, and the per-row colour and reveal decisions.
 */
module Alerts {
  import opened Optional
  import opened Trades

  /** Which message template a queued alert uses. */
  datatype AlertKind = BundleAlert | OutgoingAlert

  /** The note's CSS class: `''` or `'text-warning'`. */
  datatype Style = Plain | Warning

  /** A queued alert. The note's markup is represented by the fields it is built from. */
  datatype Alert = Alert(
    kind: AlertKind,
    memberName: string,
    memberPts: int,
    cardQty: nat,
    totalCardPts: int,
    style: Style,
    weight: int)

  /** What a bundle is worth: no more than the member can pay (`Math.min`). */
  function TradeValue(m: Member): (v: int)
    ensures v <= m.totalCardPts && v <= m.memberPts
    ensures v == m.totalCardPts || v == m.memberPts
  {
    if m.totalCardPts <= m.memberPts then m.totalCardPts else m.memberPts
  }

  predicate BundleFires(cfg: AlertSettings, m: Member) {
    cfg.onBundle && TradeValue(m) >= cfg.bundleThreshold
  }

  predicate OutgoingFires(cfg: AlertSettings, outgoing: map<string, Outgoing>, name: string) {
    cfg.onOutgoing && name in outgoing
  }

  /** A member who wants more than their balance is marked with a warning. */
  function StyleOf(m: Member): Style {
    if m.totalCardPts > m.memberPts then Warning else Plain
  }

  /** One pass of the member loop: the bundle rule stages a candidate, then the
      outgoing rule stages one that replaces it. Flags are only ever set. */
  function CheckMember(cfg: AlertSettings, outgoing: map<string, Outgoing>, name: string, m: Member): (r: (Member, Option<Alert>))
    ensures r.0 == m.(hasAlert := m.hasAlert || BundleFires(cfg, m) || OutgoingFires(cfg, outgoing, name),
                      hasBundleAlert := m.hasBundleAlert || BundleFires(cfg, m),
                      hasOutgoingAlert := m.hasOutgoingAlert || OutgoingFires(cfg, outgoing, name))
    ensures r.1.Some? <==> BundleFires(cfg, m) || OutgoingFires(cfg, outgoing, name)
    ensures r.1.Some? ==>
              && r.1.value.memberName == name
              && r.1.value.memberPts == m.memberPts
              && r.1.value.cardQty == m.cardQty
              && r.1.value.totalCardPts == m.totalCardPts
              && (r.1.value.style == Warning <==> m.totalCardPts > m.memberPts)
    ensures OutgoingFires(cfg, outgoing, name) ==>
              r.1.Some? && r.1.value.kind == OutgoingAlert
              && r.1.value.weight == TradeValue(m) + outgoing[name].totalCardPts
    ensures !OutgoingFires(cfg, outgoing, name) && BundleFires(cfg, m) ==>
              r.1.Some? && r.1.value.kind == BundleAlert && r.1.value.weight == TradeValue(m)
  {
    var tradeValue := TradeValue(m);
    var bundle := cfg.onBundle && tradeValue >= cfg.bundleThreshold;
    var m1 := if bundle then m.(hasAlert := true, hasBundleAlert := true) else m;
    var staged: Option<Alert> :=
      if bundle then Some(Alert(BundleAlert, name, m.memberPts, m.cardQty, m.totalCardPts, StyleOf(m), tradeValue))
      else None;
    if cfg.onOutgoing && name in outgoing then
      (m1.(hasAlert := true, hasOutgoingAlert := true),
       Some(Alert(OutgoingAlert, name, m.memberPts, m.cardQty, m.totalCardPts, StyleOf(m),
                  tradeValue + outgoing[name].totalCardPts)))
    else
      (m1, staged)
  }

  /** No two queued alerts are for the same member. */
  predicate OnePerMember(s: seq<Alert>) {
    forall i, j :: 0 <= i < j < |s| ==> s[i].memberName != s[j].memberName
  }

  /** The member loop over the keys in `order`, pushing each staged candidate. */
  function CheckMembers(cfg: AlertSettings, outgoing: map<string, Outgoing>, members: map<string, Member>, order: seq<string>)
    : (r: (map<string, Member>, seq<Alert>))
    requires forall n :: n in order ==> n in members
    requires Distinct(order)
    ensures r.0.Keys == members.Keys
    ensures forall n :: n in members ==>
              r.0[n] == (if n in order then CheckMember(cfg, outgoing, n, members[n]).0 else members[n])
    ensures forall a :: a in r.1 ==>
              a.memberName in order && CheckMember(cfg, outgoing, a.memberName, members[a.memberName]).1 == Some(a)
    ensures forall n :: n in order && CheckMember(cfg, outgoing, n, members[n]).1.Some? ==>
              CheckMember(cfg, outgoing, n, members[n]).1.value in r.1
    ensures OnePerMember(r.1)
    decreases |order|
  {
    if |order| == 0 then (members, [])
    else
      var name := order[0];
      var (m, staged) := CheckMember(cfg, outgoing, name, members[name]);
      assert forall n :: n in order[1..] ==> n in order && n != name;
      var rest := CheckMembers(cfg, outgoing, members[name := m], order[1..]);
      var pushed := if staged.Some? then [staged.value] else [];
      (rest.0, pushed + rest.1)
  }

  // ----- Sorting the queue by descending weight -----

  predicate NonIncreasing(s: seq<Alert>) {
    forall i, j :: 0 <= i < j < |s| ==> s[i].weight >= s[j].weight
  }

  /** `x` placed before the first alert of lower weight. */
  function Insert(x: Alert, s: seq<Alert>): (r: seq<Alert>)
    ensures multiset(r) == multiset(s) + multiset{x}
    ensures forall a :: a in r <==> a in s || a == x
    decreases |s|
  {
    if |s| == 0 || x.weight >= s[0].weight then [x] + s
    else
      assert s == [s[0]] + s[1..];
      [s[0]] + Insert(x, s[1..])
  }

  lemma {:induction false} InsertSorted(x: Alert, s: seq<Alert>)
    requires NonIncreasing(s)
    ensures NonIncreasing(Insert(x, s))
    decreases |s|
  {
    if |s| == 0 || x.weight >= s[0].weight {
    } else {
      InsertSorted(x, s[1..]);
      var r := Insert(x, s);
      assert r == [s[0]] + Insert(x, s[1..]);
      forall j | 1 <= j < |r|
        ensures s[0].weight >= r[j].weight
      {
        assert r[j] in Insert(x, s[1..]);
      }
    }
  }

  lemma {:induction false} InsertOnePerMember(x: Alert, s: seq<Alert>)
    requires OnePerMember(s)
    requires forall a :: a in s ==> a.memberName != x.memberName
    ensures OnePerMember(Insert(x, s))
    decreases |s|
  {
    if |s| == 0 || x.weight >= s[0].weight {
    } else {
      assert forall a :: a in s[1..] ==> a in s;
      InsertOnePerMember(x, s[1..]);
      var r := Insert(x, s);
      assert r == [s[0]] + Insert(x, s[1..]);
      forall j | 1 <= j < |r|
        ensures s[0].memberName != r[j].memberName
      {
        assert r[j] in Insert(x, s[1..]);
        if r[j] != x {
          var k :| 1 <= k < |s| && s[k] == r[j];
        }
      }
    }
  }

  /** The queue sorted by descending weight (the comparator `b.weight - a.weight`);
      nothing is promised about the order of equal weights. */
  function SortByWeight(s: seq<Alert>): (r: seq<Alert>)
    ensures NonIncreasing(r)
    ensures multiset(r) == multiset(s)
    ensures OnePerMember(s) ==> OnePerMember(r)
    decreases |s|
  {
    if |s| == 0 then []
    else
      var rest := SortByWeight(s[1..]);
      assert s == [s[0]] + s[1..];
      InsertSorted(s[0], rest);
      SortOnePerMember(s, rest);
      Insert(s[0], rest)
  }

  lemma SortOnePerMember(s: seq<Alert>, rest: seq<Alert>)
    requires |s| > 0
    requires multiset(rest) == multiset(s[1..])
    requires OnePerMember(s[1..]) ==> OnePerMember(rest)
    ensures OnePerMember(s) ==> OnePerMember(Insert(s[0], rest))
  {
    if OnePerMember(s) {
      forall a | a in rest
        ensures a.memberName != s[0].memberName
      {
        assert a in multiset(rest);
        var k :| 1 <= k < |s| && s[k] == a;
      }
      InsertOnePerMember(s[0], rest);
    }
  }

  // ----- The whole evaluation -----

  /** `memberData` with its flags set, and the alerts in display order. */
  datatype Checked = Checked(members: map<string, Member>, alerts: seq<Alert>)

  /** `alerts` are exactly the members' candidates, one per member, highest weight first. */
  ghost predicate Candidates(cfg: AlertSettings, outgoing: map<string, Outgoing>, members: map<string, Member>,
                             alerts: seq<Alert>)
  {
    && (forall a :: a in alerts ==>
          a.memberName in members && CheckMember(cfg, outgoing, a.memberName, members[a.memberName]).1 == Some(a))
    && (forall n :: n in members && CheckMember(cfg, outgoing, n, members[n]).1.Some? ==>
          CheckMember(cfg, outgoing, n, members[n]).1.value in alerts)
    && OnePerMember(alerts)
    && NonIncreasing(alerts)
  }

  /** Each flag of `m` says exactly whether its rule fires for member `n`,
      and `hasAlert` whether either does. */
  ghost predicate FlaggedByRules(cfg: AlertSettings, outgoing: map<string, Outgoing>, n: string, m: Member) {
    && (m.hasBundleAlert <==> cfg.onBundle && TradeValue(m) >= cfg.bundleThreshold)
    && (m.hasOutgoingAlert <==> cfg.onOutgoing && n in outgoing)
    && (m.hasAlert <==> m.hasBundleAlert || m.hasOutgoingAlert)
  }

  function CheckForAlerts(cfg: AlertSettings, outgoing: map<string, Outgoing>, members: map<string, Member>, order: seq<string>)
    : (r: Checked)
    requires Enumerates(order, members.Keys)
    ensures r.members.Keys == members.Keys
    ensures forall n :: n in members ==> r.members[n] == CheckMember(cfg, outgoing, n, members[n]).0
    ensures Candidates(cfg, outgoing, members, r.alerts)
  {
    var (flagged, pending) := CheckMembers(cfg, outgoing, members, order);
    var sorted := SortByWeight(pending);
    assert forall a :: a in sorted <==> a in pending by {
      assert forall a :: a in sorted <==> a in multiset(sorted);
    }
    Checked(flagged, sorted)
  }

  /** From a freshly aggregated entry, each flag says exactly whether its
      rule fired, and `hasAlert` whether either did. */
  lemma FreshMemberFlags(cfg: AlertSettings, outgoing: map<string, Outgoing>, n: string, m0: Member)
    requires FlagsClear(m0)
    ensures FlaggedByRules(cfg, outgoing, n, CheckMember(cfg, outgoing, n, m0).0)
  {
  }

  /** The evaluation keeps `hasAlert == hasBundleAlert || hasOutgoingAlert`. */
  lemma FlagsStayConsistent(cfg: AlertSettings, outgoing: map<string, Outgoing>, members: map<string, Member>, order: seq<string>)
    requires Enumerates(order, members.Keys)
    requires forall n :: n in members ==> FlagsConsistent(members[n])
    ensures var r := CheckForAlerts(cfg, outgoing, members, order).members;
            forall n :: n in r ==> FlagsConsistent(r[n])
  {
  }

  /** A queue with one alert per member holds each alert once. */
  lemma {:induction false} OnePerMemberCounts(s: seq<Alert>, x: Alert)
    requires OnePerMember(s)
    ensures multiset(s)[x] == if x in s then 1 else 0
    decreases |s|
  {
    if |s| > 0 {
      assert s == [s[0]] + s[1..];
      assert OnePerMember(s[1..]);
      OnePerMemberCounts(s[1..], x);
      if x == s[0] {
        forall k | 1 <= k < |s|
          ensures s[k] != x
        {
          assert s[0].memberName != s[k].memberName;
        }
      }
    }
  }

  /** The order `for…in` visits the members in does not change the flags set. */
  lemma OrderIrrelevantFlags(cfg: AlertSettings, outgoing: map<string, Outgoing>, members: map<string, Member>,
                             order1: seq<string>, order2: seq<string>)
    requires Enumerates(order1, members.Keys)
    requires Enumerates(order2, members.Keys)
    ensures CheckForAlerts(cfg, outgoing, members, order1).members
         == CheckForAlerts(cfg, outgoing, members, order2).members
  {
  }

  /** Nor the alerts queued: only the order of equal-weight alerts may differ. */
  lemma OrderIrrelevantAlerts(cfg: AlertSettings, outgoing: map<string, Outgoing>, members: map<string, Member>,
                              order1: seq<string>, order2: seq<string>)
    requires Enumerates(order1, members.Keys)
    requires Enumerates(order2, members.Keys)
    ensures multiset(CheckForAlerts(cfg, outgoing, members, order1).alerts)
         == multiset(CheckForAlerts(cfg, outgoing, members, order2).alerts)
  {
    var r1 := CheckForAlerts(cfg, outgoing, members, order1);
    var r2 := CheckForAlerts(cfg, outgoing, members, order2);
    SameAlerts(cfg, outgoing, members, r1, r2);
    SameAlerts(cfg, outgoing, members, r2, r1);
    forall x
      ensures multiset(r1.alerts)[x] == multiset(r2.alerts)[x]
    {
      OnePerMemberCounts(r1.alerts, x);
      OnePerMemberCounts(r2.alerts, x);
    }
  }

  lemma SameAlerts(cfg: AlertSettings, outgoing: map<string, Outgoing>, members: map<string, Member>, r1: Checked, r2: Checked)
    requires forall a :: a in r1.alerts ==>
               a.memberName in members && CheckMember(cfg, outgoing, a.memberName, members[a.memberName]).1 == Some(a)
    requires forall n :: n in members && CheckMember(cfg, outgoing, n, members[n]).1.Some? ==>
               CheckMember(cfg, outgoing, n, members[n]).1.value in r2.alerts
    ensures forall a :: a in r1.alerts ==> a in r2.alerts
  {
    forall a | a in r1.alerts
      ensures a in r2.alerts
    {
      var staged := CheckMember(cfg, outgoing, a.memberName, members[a.memberName]).1;
      assert staged == Some(a);
    }
  }

  // ----- Row colour and reveal -----

  /** What the colouring loop does to one row: an alerted row is revealed and
      coloured, the outgoing colour winning over the bundle colour. */
  datatype RowMark = RowMark(show: bool, color: Option<Color>)

  function Mark(cfg: AlertSettings, m: Member): (r: RowMark)
    ensures r.show <==> m.hasAlert
    ensures r.color.Some? ==> m.hasAlert
    ensures m.hasAlert && cfg.colorizeOutgoingRows && m.hasOutgoingAlert ==>
              r.color == Some(cfg.colorizeOutgoingColor)
    ensures m.hasAlert && !(cfg.colorizeOutgoingRows && m.hasOutgoingAlert) && cfg.colorizeBundleRows && m.hasBundleAlert ==>
              r.color == Some(cfg.colorizeBundleColor)
    ensures !(cfg.colorizeOutgoingRows && m.hasOutgoingAlert) && !(cfg.colorizeBundleRows && m.hasBundleAlert) ==>
              r.color == None
  {
    if !m.hasAlert then RowMark(false, None)
    else
      var bundleColor := if cfg.colorizeBundleRows && m.hasBundleAlert then Some(cfg.colorizeBundleColor) else None;
      var rowColor := if cfg.colorizeOutgoingRows && m.hasOutgoingAlert then Some(cfg.colorizeOutgoingColor) else bundleColor;
      RowMark(true, rowColor)
  }

  /** The colouring loop over `tableData`. */
  function MarkRows(cfg: AlertSettings, members: map<string, Member>, rows: seq<TradeRow>): (r: seq<RowMark>)
    requires Covers(members, rows)
    ensures |r| == |rows|
    ensures forall i :: 0 <= i < |rows| ==> r[i] == Mark(cfg, members[rows[i].memberName])
    decreases |rows|
  {
    if |rows| == 0 then []
    else [Mark(cfg, members[rows[0].memberName])] + MarkRows(cfg, members, rows[1..])
  }

  // ----- Worked cases -----

  /** Alice: 600 points, cards worth 300 and 250, threshold 500: one bundle
      alert of weight 550 without a warning. */
  lemma BundleExample()
    ensures var cfg := AlertSettings(true, 500, false, "", false, false, "");
            var m := Member(600, 2, 550, false, false, false);
            CheckMember(cfg, map[], "Alice", m).1 == Some(Alert(BundleAlert, "Alice", 600, 2, 550, Plain, 550))
  {
  }

  /** Cara: 1000 points, cards worth 50, 80 points already owed to the member: the
      outgoing alert of weight 50 + 80 replaces any bundle alert. */
  lemma OutgoingExample()
    ensures var cfg := AlertSettings(true, 10, false, "", true, false, "");
            var m := Member(1000, 1, 50, false, false, false);
            CheckMember(cfg, map["Cara" := Outgoing(2, 80)], "Cara", m)
            == (m.(hasAlert := true, hasBundleAlert := true, hasOutgoingAlert := true),
                Some(Alert(OutgoingAlert, "Cara", 1000, 1, 50, Plain, 130)))
  {
  }

  /** Bob: 100 points, a card worth 300, threshold 200: the bundle is worth only
      what the member can pay, 100, so no alert. */
  lemma CappedBundleExample()
    ensures var cfg := AlertSettings(true, 200, false, "", false, false, "");
            CheckMember(cfg, map[], "Bob", Member(100, 1, 300, false, false, false)).1 == None
  {
  }
}

=== FILE: config.dfy ===
/**
 * Reading the settings form (loadSettingsFromPage): integer inputs go
 * through safeParse, and the reload interval is floored at ten seconds.
 */
module Config {
  import opened Optional
  import opened Trades

  /** The settings form's controls. An integer input carries what `parseInt`
      made of its text: `None` stands for `NaN`. */
  datatype PageInputs = PageInputs(
    reloadInterval: Option<int>,
    onBundle: bool,
    bundleThreshold: Option<int>,
    colorizeBundleRows: bool,
    colorizeBundleColor: Color,
    onOutgoing: bool,
    colorizeOutgoingRows: bool,
    colorizeOutgoingColor: Color,
    cardByValue: bool,
    minCardValue: Option<int>)

  /** The floor on the reload interval, in seconds. */
  const MinReloadInterval := 10

  /** An unparseable input falls back to `nanFallback`; a value (parsed or
      fallen back) that is not positive is replaced by `negFallback`. */
  function SafeParse(value: Option<int>, nanFallback: int, negFallback: int): (r: int)
    ensures value.Some? && value.value > 0 ==> r == value.value
    ensures value.Some? && value.value <= 0 ==> r == negFallback
    ensures value.None? && nanFallback > 0 ==> r == nanFallback
    ensures value.None? && nanFallback <= 0 ==> r == negFallback
    ensures negFallback > 0 ==> r > 0
  {
    var temp := if value.None? then nanFallback else value.value;
    if temp <= 0 then negFallback else temp
  }

  /** Settings as reading the form always leaves them. */
  predicate Sanitized(s: Settings) {
    && s.reloadInterval >= MinReloadInterval
    && s.alert.bundleThreshold > 0
    && s.filter.minCardValue > 0
  }

  /** loadSettingsFromPage: the current settings serve as the fallback for
      unparseable inputs, the defaults for non-positive ones. */
  function LoadSettingsFromPage(current: Settings, page: PageInputs): (s: Settings)
    ensures Sanitized(s)
    ensures page.reloadInterval.Some? && page.reloadInterval.value >= MinReloadInterval ==>
              s.reloadInterval == page.reloadInterval.value
    ensures page.reloadInterval.Some? && 0 < page.reloadInterval.value < MinReloadInterval ==>
              s.reloadInterval == MinReloadInterval
    ensures page.reloadInterval.Some? && page.reloadInterval.value <= 0 ==>
              s.reloadInterval == Defaults.reloadInterval
    ensures page.reloadInterval.None? && current.reloadInterval >= MinReloadInterval ==>
              s.reloadInterval == current.reloadInterval
    ensures page.reloadInterval.None? && 0 < current.reloadInterval < MinReloadInterval ==>
              s.reloadInterval == MinReloadInterval
    ensures page.reloadInterval.None? && current.reloadInterval <= 0 ==>
              s.reloadInterval == Defaults.reloadInterval
    ensures s.alert.bundleThreshold
         == SafeParse(page.bundleThreshold, current.alert.bundleThreshold, Defaults.alert.bundleThreshold)
    ensures s.filter.minCardValue
         == SafeParse(page.minCardValue, current.filter.minCardValue, Defaults.filter.minCardValue)
    ensures s.alert.onBundle == page.onBundle && s.alert.onOutgoing == page.onOutgoing
    ensures s.alert.colorizeBundleRows == page.colorizeBundleRows && s.alert.colorizeBundleColor == page.colorizeBundleColor
    ensures s.alert.colorizeOutgoingRows == page.colorizeOutgoingRows && s.alert.colorizeOutgoingColor == page.colorizeOutgoingColor
    ensures s.filter.cardByValue == page.cardByValue
  {
    var parsed := SafeParse(page.reloadInterval, current.reloadInterval, Defaults.reloadInterval);
    var interval := if parsed < MinReloadInterval then MinReloadInterval else parsed;
    Settings(
      interval,
      AlertSettings(
        page.onBundle,
        SafeParse(page.bundleThreshold, current.alert.bundleThreshold, Defaults.alert.bundleThreshold),
        page.colorizeBundleRows,
        page.colorizeBundleColor,
        page.onOutgoing,
        page.colorizeOutgoingRows,
        page.colorizeOutgoingColor),
      FilterSettings(
        page.cardByValue,
        SafeParse(page.minCardValue, current.filter.minCardValue, Defaults.filter.minCardValue)))
  }

  /** applySettingsToPage: every control shows its setting. */
  function ApplySettingsToPage(s: Settings): (r: PageInputs)
    ensures Sanitized(s) ==> forall current :: LoadSettingsFromPage(current, r) == s
  {
    PageInputs(
      Some(s.reloadInterval),
      s.alert.onBundle,
      Some(s.alert.bundleThreshold),
      s.alert.colorizeBundleRows,
      s.alert.colorizeBundleColor,
      s.alert.onOutgoing,
      s.alert.colorizeOutgoingRows,
      s.alert.colorizeOutgoingColor,
      s.filter.cardByValue,
      Some(s.filter.minCardValue))
  }

  /** Showing sanitized settings on the form and reading them back changes
      nothing, whatever the settings in force. */
  lemma ReloadAfterApply(current: Settings, s: Settings)
    requires Sanitized(s)
    ensures LoadSettingsFromPage(current, ApplySettingsToPage(s)) == s
  {
  }

  /** Reading the form is idempotent: once read and shown back, a second read
      yields the same settings. */
  lemma LoadIdempotent(current: Settings, page: PageInputs)
    ensures var s := LoadSettingsFromPage(current, page);
            LoadSettingsFromPage(s, ApplySettingsToPage(s)) == s
  {
    ReloadAfterApply(LoadSettingsFromPage(current, page), LoadSettingsFromPage(current, page));
  }
}

=== FILE: cycle.dfy ===
/**
 * The refresh cycle: the two load flags that join the trade-table load and
 * the outgoing-trades fetch, the `running` flag and the reload timer, and the
 * request events that drive them.
 */
module Cycle {
  import opened Optional
  import opened Trades
  import opened Aggregation
  import opened Alerts
  import opened Filtering
  import opened Config
  import opened Urls

  /** An entry of the note list. */
  datatype Note = AlertNote(alert: Alert) | FilteredNote(count: nat)

  /** What the last evaluation put on the page. */
  datatype Display = Display(
    notes: seq<Note>,
    marks: seq<RowMark>,
    hidden: seq<bool>,
    total: int,
    notify: bool)       // sound and title flash requested

  datatype State = State(
    settings: Settings,
    running: bool,
    autoMatch: bool,            // the site's auto-match toggle
    reloadTimeout: bool,        // the `reloadTimeout` handle is set
    liveTimers: nat,            // scheduled `go` callbacks neither fired nor cleared
    tableLoadComplete: bool,
    outgoingLoadComplete: bool,
    table: Table,
    outgoingTrades: map<string, Outgoing>,
    display: Display,
    evaluations: nat)           // how many times the evaluation step has run

  /** What the page and the network do to the engine. */
  datatype Event =
    | StartPressed(inputs: PageInputs)
    | StopPressed
    | TimerFired(inputs: PageInputs)
    | AutoMatchToggled(on: bool)
    | Send(url: string)
    // `rendered` is the trade table as the page shows it when the request
    // completes; `response` the unshipped rows a successful fetch returned
    | Complete(url: string, rendered: seq<TradeRow>, response: Option<seq<OutgoingRow>>)

  /** `memberData` belongs to `tableData`, and its flags are consistent. */
  ghost predicate TableValid(s: State) {
    && s.table.members.Keys == NameSet(s.table.rows)
    && forall n :: n in s.table.members ==> FlagsConsistent(s.table.members[n])
  }

  /** At most one reload timer is alive, and it is the one the handle refers to. */
  ghost predicate TimersValid(s: State) {
    s.liveTimers == if s.reloadTimeout then 1 else 0
  }

  ghost predicate Valid(s: State) {
    TableValid(s) && TimersValid(s)
  }

  function Init(settings: Settings, autoMatch: bool): (s: State)
    ensures Valid(s)
    ensures !s.running && !s.tableLoadComplete && !s.outgoingLoadComplete
    ensures !s.reloadTimeout && s.liveTimers == 0
    ensures s.table == Table([], map[]) && s.outgoingTrades == map[]
    ensures s.settings == settings && s.autoMatch == autoMatch && s.evaluations == 0
  {
    State(settings, false, autoMatch, false, 0, false, false, Table([], map[]), map[],
          Display([], [], [], 0, false), 0)
  }

  function AlertNotes(alerts: seq<Alert>): (notes: seq<Note>)
    ensures |notes| == |alerts|
    ensures forall i :: 0 <= i < |alerts| ==> notes[i] == AlertNote(alerts[i])
  {
    seq(|alerts|, i requires 0 <= i < |alerts| => AlertNote(alerts[i]))
  }

  /** checkForAlerts then filterTrades, after the notes are cleared: the
      flagged `memberData` and what is shown. */
  function Evaluate(settings: Settings, table: Table, outgoing: map<string, Outgoing>): (r: (Table, Display))
    requires table.members.Keys == NameSet(table.rows)
    requires forall n :: n in table.members ==> FlagsConsistent(table.members[n])
    ensures r.0.rows == table.rows && r.0.members.Keys == table.members.Keys
    ensures forall n :: n in r.0.members ==> FlagsConsistent(r.0.members[n])
    ensures forall n :: n in r.0.members ==> r.0.members[n] == CheckMember(settings.alert, outgoing, n, table.members[n]).0
    ensures Covers(r.0.members, table.rows)
  {
    var checked := CheckForAlerts(settings.alert, outgoing, table.members, KeyOrder(table.rows));
    FlagsStayConsistent(settings.alert, outgoing, table.members, KeyOrder(table.rows));
    NameSetCovers(checked.members, table.rows);
    (Table(table.rows, checked.members), Show(settings, table.rows, checked.members, checked.alerts))
  }

  /** The notes of a display whose first notes are the alerts' notes. */
  ghost predicate AlertNotesShow(cfg: AlertSettings, outgoing: map<string, Outgoing>, members: map<string, Member>,
                                 notes: seq<Note>, k: nat)
    requires k <= |notes|
  {
    && (forall i :: 0 <= i < k ==>
          && notes[i].AlertNote?
          && notes[i].alert.memberName in members
          && CheckMember(cfg, outgoing, notes[i].alert.memberName, members[notes[i].alert.memberName]).1 == Some(notes[i].alert))
    && (forall n :: n in members && CheckMember(cfg, outgoing, n, members[n]).1.Some? ==>
          AlertNote(CheckMember(cfg, outgoing, n, members[n]).1.value) in notes[..k])
    && (forall i, j :: 0 <= i < j < k ==>
          notes[i].alert.weight >= notes[j].alert.weight && notes[i].alert.memberName != notes[j].alert.memberName)
  }

  lemma CandidateNotes(cfg: AlertSettings, outgoing: map<string, Outgoing>, members: map<string, Member>,
                       alerts: seq<Alert>, notes: seq<Note>)
    requires Candidates(cfg, outgoing, members, alerts)
    requires |alerts| <= |notes|
    requires forall i :: 0 <= i < |alerts| ==> notes[i] == AlertNote(alerts[i])
    ensures AlertNotesShow(cfg, outgoing, members, notes, |alerts|)
  {
    var k := |alerts|;
    forall i | 0 <= i < k
      ensures notes[i].alert.memberName in members
      ensures CheckMember(cfg, outgoing, notes[i].alert.memberName, members[notes[i].alert.memberName]).1 == Some(notes[i].alert)
    {
      assert alerts[i] in alerts;
    }
    forall n | n in members && CheckMember(cfg, outgoing, n, members[n]).1.Some?
      ensures AlertNote(CheckMember(cfg, outgoing, n, members[n]).1.value) in notes[..k]
    {
      var a := CheckMember(cfg, outgoing, n, members[n]).1.value;
      var i :| 0 <= i < k && alerts[i] == a;
      assert notes[..k][i] == AlertNote(a);
    }
  }

  /** What an evaluation displays: first one note per queued alert, each the
      candidate of a member of the table, one per member, every candidate
      shown, highest weight first; then, if the filter hid rows, their count. */
  lemma EvaluateShowsCandidates(settings: Settings, table: Table, outgoing: map<string, Outgoing>)
    requires table.members.Keys == NameSet(table.rows)
    requires forall n :: n in table.members ==> FlagsConsistent(table.members[n])
    ensures var r := Evaluate(settings, table, outgoing);
            var filterQty := FilterTrades(settings.filter, r.0.members, table.rows).filterQty;
            var k := |r.1.notes| - (if filterQty > 0 then 1 else 0);
            && 0 <= k
            && AlertNotesShow(settings.alert, outgoing, table.members, r.1.notes, k)
            && (k < |r.1.notes| ==> r.1.notes[k] == FilteredNote(filterQty))
  {
    var checked := CheckForAlerts(settings.alert, outgoing, table.members, KeyOrder(table.rows));
    EvaluateShows(settings, table, outgoing);
    var d := Evaluate(settings, table, outgoing).1;
    CandidateNotes(settings.alert, outgoing, table.members, checked.alerts, d.notes);
  }

  /** Evaluation shows the queue that checkForAlerts leaves. */
  lemma EvaluateShows(settings: Settings, table: Table, outgoing: map<string, Outgoing>)
    requires table.members.Keys == NameSet(table.rows)
    requires forall n :: n in table.members ==> FlagsConsistent(table.members[n])
    ensures var checked := CheckForAlerts(settings.alert, outgoing, table.members, KeyOrder(table.rows));
            var r := Evaluate(settings, table, outgoing);
            && r.0.members == checked.members
            && Covers(checked.members, table.rows)
            && r.1 == Show(settings, table.rows, checked.members, checked.alerts)
  {
  }

  /** The page after an evaluation: the sorted alert notes and the filter's
      note, the row marks, the hidden rows and the total. Every alerted row
      ends up revealed and is never hidden by the filter. */
  function Show(settings: Settings, rows: seq<TradeRow>, members: map<string, Member>, alerts: seq<Alert>): (d: Display)
    requires Covers(members, rows)
    ensures |d.marks| == |rows| && |d.hidden| == |rows|
    ensures forall i :: 0 <= i < |rows| && members[rows[i].memberName].hasAlert ==> d.marks[i].show && !d.hidden[i]
    ensures d.marks == MarkRows(settings.alert, members, rows)
    ensures d.hidden == FilterTrades(settings.filter, members, rows).hidden
    ensures 0 <= d.total <= |rows|
    ensures d.total == |rows| - FilterTrades(settings.filter, members, rows).filterQty
    ensures d.notify <==> |alerts| > 0
    // the alerts in queue order, then the filter's note when it hid anything
    ensures var filterQty := FilterTrades(settings.filter, members, rows).filterQty;
            && |d.notes| == |alerts| + (if filterQty > 0 then 1 else 0)
            && (forall i :: 0 <= i < |alerts| ==> d.notes[i] == AlertNote(alerts[i]))
            && (filterQty > 0 ==> d.notes[|alerts|] == FilteredNote(filterQty))
  {
    var filtered := FilterTrades(settings.filter, members, rows);
    var notes := AlertNotes(alerts) + (if filtered.filterQty > 0 then [FilteredNote(filtered.filterQty)] else []);
    Display(notes, MarkRows(settings.alert, members, rows), filtered.hidden,
            VisibleTotal(settings.filter, members, rows), |alerts| > 0)
  }

  /** reloadComplete: nothing unless both loads are complete; then evaluate,
      and schedule the next `go` if running, the interval is positive and no
      reload is pending. */
  function ReloadComplete(s: State): (r: State)
    requires TableValid(s)
    ensures TableValid(r)
    ensures TimersValid(s) ==> TimersValid(r)
    ensures !(s.tableLoadComplete && s.outgoingLoadComplete) ==> r == s
    ensures r.evaluations == s.evaluations + (if s.tableLoadComplete && s.outgoingLoadComplete then 1 else 0)
    ensures r.liveTimers > s.liveTimers <==>
              s.tableLoadComplete && s.outgoingLoadComplete
              && s.settings.reloadInterval > 0 && !s.reloadTimeout && s.running
    ensures r.liveTimers >= s.liveTimers && r.liveTimers <= s.liveTimers + 1
    ensures r.reloadTimeout == (s.reloadTimeout || r.liveTimers > s.liveTimers)
    ensures r.running == s.running && r.settings == s.settings && r.autoMatch == s.autoMatch
    ensures r.tableLoadComplete == s.tableLoadComplete && r.outgoingLoadComplete == s.outgoingLoadComplete
    ensures r.table.rows == s.table.rows
    ensures r.outgoingTrades == s.outgoingTrades
    // with both loads in, the page shows this evaluation
    ensures s.tableLoadComplete && s.outgoingLoadComplete ==>
              && r.table == Evaluate(s.settings, s.table, s.outgoingTrades).0
              && r.display == Evaluate(s.settings, s.table, s.outgoingTrades).1
  {
    if !s.tableLoadComplete || !s.outgoingLoadComplete then s
    else
      var (table, display) := Evaluate(s.settings, s.table, s.outgoingTrades);
      var evaluated := s.(table := table, display := display, evaluations := s.evaluations + 1);
      if s.settings.reloadInterval > 0 && !s.reloadTimeout && s.running then
        evaluated.(reloadTimeout := true, liveTimers := s.liveTimers + 1)
      else
        evaluated
  }

  /** stop: not running, and the pending reload (if any) cleared. */
  function Stop(s: State): (r: State)
    ensures !r.running && !r.reloadTimeout
    ensures r.liveTimers == if s.reloadTimeout && s.liveTimers > 0 then s.liveTimers - 1 else s.liveTimers
    ensures TimersValid(s) ==> r.liveTimers == 0
    ensures TableValid(s) ==> TableValid(r)
    ensures r.evaluations == s.evaluations
    ensures r.settings == s.settings && r.autoMatch == s.autoMatch
    ensures r.table == s.table && r.outgoingTrades == s.outgoingTrades && r.display == s.display
    ensures r.tableLoadComplete == s.tableLoadComplete && r.outgoingLoadComplete == s.outgoingLoadComplete
  {
    if s.reloadTimeout && s.liveTimers > 0 then
      s.(running := false, reloadTimeout := false, liveTimers := s.liveTimers - 1)
    else
      s.(running := false, reloadTimeout := false)
  }

  /** go as the script writes it: the handle is forgotten, not cleared. */
  function GoAsWritten(s: State, inputs: PageInputs): (r: State)
    ensures r.running && !r.reloadTimeout && r.autoMatch && Sanitized(r.settings)
    ensures r.liveTimers == s.liveTimers
    ensures r.settings == LoadSettingsFromPage(s.settings, inputs)
    ensures r.table == s.table && r.outgoingTrades == s.outgoingTrades && r.display == s.display
    ensures r.tableLoadComplete == s.tableLoadComplete && r.outgoingLoadComplete == s.outgoingLoadComplete
    ensures r.evaluations == s.evaluations
    ensures TableValid(s) ==> TableValid(r)
  {
    s.(settings := LoadSettingsFromPage(s.settings, inputs), running := true, reloadTimeout := false, autoMatch := true)
  }

  /** go with a pending reload cleared before its handle is forgotten. */
  function Go(s: State, inputs: PageInputs): (r: State)
    ensures r.running && !r.reloadTimeout && r.autoMatch && Sanitized(r.settings)
    ensures r.liveTimers == if s.reloadTimeout && s.liveTimers > 0 then s.liveTimers - 1 else s.liveTimers
    ensures TimersValid(s) ==> r.liveTimers == 0
    ensures TableValid(s) ==> TableValid(r)
    ensures r.settings == LoadSettingsFromPage(s.settings, inputs)
    ensures r.table == s.table && r.outgoingTrades == s.outgoingTrades && r.display == s.display
    ensures r.tableLoadComplete == s.tableLoadComplete && r.outgoingLoadComplete == s.outgoingLoadComplete
    ensures r.evaluations == s.evaluations
  {
    var cleared := if s.reloadTimeout && s.liveTimers > 0 then s.liveTimers - 1 else s.liveTimers;
    s.(settings := LoadSettingsFromPage(s.settings, inputs), running := true, reloadTimeout := false,
       liveTimers := cleared, autoMatch := true)
  }

  /** Which `go` the Start button and the reload timer run: the script's, which
      forgets a pending reload, or the corrected one, which clears it first. */
  datatype Engine = Script | Corrected

  function GoBy(engine: Engine, s: State, inputs: PageInputs): (r: State)
    ensures r.running && !r.reloadTimeout && r.autoMatch
    ensures TableValid(s) ==> TableValid(r)
    ensures engine == Corrected && TimersValid(s) ==> r.liveTimers == 0
    ensures engine == Script ==> r.liveTimers == s.liveTimers
    ensures r.settings == LoadSettingsFromPage(s.settings, inputs)
    ensures r.table == s.table && r.outgoingTrades == s.outgoingTrades && r.display == s.display
    ensures r.tableLoadComplete == s.tableLoadComplete && r.outgoingLoadComplete == s.outgoingLoadComplete
    ensures r.evaluations == s.evaluations
  {
    match engine
    case Script => GoAsWritten(s, inputs)
    case Corrected => Go(s, inputs)
  }

  /** A reload timer runs `go`; the fired timer is spent by then, and with the
      script's `go` it may be a forgotten one rather than the one the handle names. */
  function FireTimer(engine: Engine, s: State, inputs: PageInputs): (r: State)
    ensures s.liveTimers == 0 ==> r == s
    ensures s.liveTimers > 0 ==> r.running && r.liveTimers <= s.liveTimers - 1
    ensures s.liveTimers > 0 && engine == Script ==> r.liveTimers == s.liveTimers - 1
    ensures TableValid(s) ==> TableValid(r)
    ensures engine == Corrected && TimersValid(s) ==> TimersValid(r)
    // the callback is `go` itself: it re-reads the form and touches nothing else
    ensures s.liveTimers > 0 ==>
              && r.settings == LoadSettingsFromPage(s.settings, inputs) && r.autoMatch && !r.reloadTimeout
              && r.table == s.table && r.outgoingTrades == s.outgoingTrades && r.display == s.display
              && r.tableLoadComplete == s.tableLoadComplete && r.outgoingLoadComplete == s.outgoingLoadComplete
              && r.evaluations == s.evaluations
  {
    if s.liveTimers == 0 then s
    else GoBy(engine, s.(liveTimers := s.liveTimers - 1, reloadTimeout := false), inputs)
  }

  /** The `.ajaxSend` handler. A trade-table load also starts
      loadOutgoingTrades, whose own request is sent, and seen, at once. */
  function OnSend(s: State, url: string): (r: State)
    ensures Classify(url) == TradeTable ==> !r.tableLoadComplete && !r.outgoingLoadComplete
    ensures Classify(url) == OutgoingFeed ==> !r.outgoingLoadComplete && r.tableLoadComplete == s.tableLoadComplete
    ensures Classify(url) == TradesSubpage || Classify(url) == Unrelated ==> r == s
    ensures r == s.(tableLoadComplete := r.tableLoadComplete, outgoingLoadComplete := r.outgoingLoadComplete)
    decreases if Classify(url) == TradeTable then 1 else 0
  {
    match Classify(url)
    case OutgoingFeed => s.(outgoingLoadComplete := false)
    case TradesSubpage => s
    case TradeTable =>
      OutgoingUrlKind();
      OnSend(s.(tableLoadComplete := false), OutgoingUrl)
    case Unrelated => s
  }

  /** The `.ajaxComplete` handler: record the loaded data, mark its flag, and
      try to evaluate. */
  function OnComplete(s: State, url: string, rendered: seq<TradeRow>, response: Option<seq<OutgoingRow>>): (r: State)
    requires TableValid(s)
    ensures TableValid(r)
    ensures TimersValid(s) ==> TimersValid(r)
    ensures Classify(url) == OutgoingFeed ==>
              && r.outgoingLoadComplete && r.tableLoadComplete == s.tableLoadComplete
              && r.outgoingTrades == LoadOutgoingTrades(s.outgoingTrades, response)
              && r.table.rows == s.table.rows
    ensures Classify(url) == TradeTable ==>
              && r.tableLoadComplete && r.outgoingLoadComplete == s.outgoingLoadComplete
              && r.table.rows == (if s.autoMatch then rendered else s.table.rows)
              && r.outgoingTrades == s.outgoingTrades
    ensures Classify(url) == TradesSubpage || Classify(url) == Unrelated ==> r == s
    ensures r.evaluations == s.evaluations || r.evaluations == s.evaluations + 1
    ensures r.evaluations > s.evaluations ==> r.tableLoadComplete && r.outgoingLoadComplete
    ensures r.running == s.running && r.settings == s.settings
  {
    match Classify(url)
    case OutgoingFeed =>
      ReloadComplete(s.(outgoingTrades := LoadOutgoingTrades(s.outgoingTrades, response), outgoingLoadComplete := true))
    case TradesSubpage => s
    case TradeTable =>
      var table := ParseTradeTable(s.table, rendered, s.autoMatch);
      ReloadComplete(s.(table := table, tableLoadComplete := true))
    case Unrelated => s
  }

  /** One event. The table half of the invariant holds whichever `go` runs;
      the timer half (at most one live reload, the one the handle names) only
      with the corrected `go`. */
  function Step(engine: Engine, s: State, e: Event): (r: State)
    requires TableValid(s)
    ensures TableValid(r)
    ensures engine == Corrected && TimersValid(s) ==> TimersValid(r)
    ensures r.evaluations == s.evaluations
            || (r.evaluations == s.evaluations + 1 && e.Complete? && r.tableLoadComplete && r.outgoingLoadComplete)
  {
    match e
    case StartPressed(inputs) => GoBy(engine, s, inputs)
    case StopPressed => Stop(s)
    case TimerFired(inputs) => FireTimer(engine, s, inputs)
    case AutoMatchToggled(on) => s.(autoMatch := on)
    case Send(url) => OnSend(s, url)
    case Complete(url, rendered, response) => OnComplete(s, url, rendered, response)
  }

  function Run(engine: Engine, s: State, trace: seq<Event>): (r: State)
    requires TableValid(s)
    ensures TableValid(r)
    ensures engine == Corrected && TimersValid(s) ==> TimersValid(r)
    ensures r.evaluations <= s.evaluations + |trace|
    decreases |trace|
  {
    if |trace| == 0 then s else Run(engine, Step(engine, s, trace[0]), trace[1..])
  }

  /** A trade-table load whose table completes first: the first completion
      evaluates nothing, the second evaluates exactly once, on this cycle's rows
      and outgoing ledger, with each member's flags saying exactly which rules
      fired, and the page shows that evaluation. The outgoing request may carry
      a query (the cache-busting `_=` parameter), so its URL is any the
      handlers classify as the outgoing feed. `tableResponse` and
      `outgoingRendered` are the parts of the two completions their handlers
      do not read. */
  lemma JoinTableFirst(engine: Engine, s: State, url: string, outUrl: string,
                       rendered: seq<TradeRow>, response: Option<seq<OutgoingRow>>,
                       outgoingRendered: seq<TradeRow>, tableResponse: Option<seq<OutgoingRow>>)
    requires TableValid(s)
    requires Classify(url) == TradeTable && Classify(outUrl) == OutgoingFeed
    ensures var s1 := Step(engine, s, Send(url));
            var s2 := Step(engine, s1, Complete(url, rendered, tableResponse));
            var s3 := Step(engine, s2, Complete(outUrl, outgoingRendered, response));
            && s1.evaluations == s.evaluations
            && s2.evaluations == s.evaluations
            && s3.evaluations == s.evaluations + 1
            && s3.outgoingTrades == LoadOutgoingTrades(s.outgoingTrades, response)
            && s3.display == Evaluate(s.settings, ParseTradeTable(s.table, rendered, s.autoMatch),
                                      LoadOutgoingTrades(s.outgoingTrades, response)).1
            && (s.autoMatch ==> s3.table.rows == rendered)
            && (s.autoMatch ==> forall n :: n in s3.table.members ==>
                                  FlaggedByRules(s.settings.alert, s3.outgoingTrades, n, s3.table.members[n]))
  {
    var s1 := Step(engine, s, Send(url));
    TableSendResets(engine, s, url);
    var s2 := Step(engine, s1, Complete(url, rendered, tableResponse));
    TableArrives(engine, s1, url, rendered, tableResponse);
    OutgoingArrives(engine, s2, outUrl, outgoingRendered, response);
    if s.autoMatch {
      EvaluatedFresh(s2.(outgoingTrades := LoadOutgoingTrades(s2.outgoingTrades, response), outgoingLoadComplete := true));
    }
  }

  /** The same load with the outgoing fetch completing first. */
  lemma JoinOutgoingFirst(engine: Engine, s: State, url: string, outUrl: string,
                          rendered: seq<TradeRow>, response: Option<seq<OutgoingRow>>,
                          outgoingRendered: seq<TradeRow>, tableResponse: Option<seq<OutgoingRow>>)
    requires TableValid(s)
    requires Classify(url) == TradeTable && Classify(outUrl) == OutgoingFeed
    ensures var s1 := Step(engine, s, Send(url));
            var s2 := Step(engine, s1, Complete(outUrl, outgoingRendered, response));
            var s3 := Step(engine, s2, Complete(url, rendered, tableResponse));
            && s1.evaluations == s.evaluations
            && s2.evaluations == s.evaluations
            && s3.evaluations == s.evaluations + 1
            && s3.outgoingTrades == LoadOutgoingTrades(s.outgoingTrades, response)
            && s3.display == Evaluate(s.settings, ParseTradeTable(s.table, rendered, s.autoMatch),
                                      LoadOutgoingTrades(s.outgoingTrades, response)).1
            && (s.autoMatch ==> s3.table.rows == rendered)
            && (s.autoMatch ==> forall n :: n in s3.table.members ==>
                                  FlaggedByRules(s.settings.alert, s3.outgoingTrades, n, s3.table.members[n]))
  {
    var s1 := Step(engine, s, Send(url));
    TableSendResets(engine, s, url);
    var s2 := Step(engine, s1, Complete(outUrl, outgoingRendered, response));
    OutgoingArrives(engine, s1, outUrl, outgoingRendered, response);
    TableArrives(engine, s2, url, rendered, tableResponse);
    if s.autoMatch {
      EvaluatedFresh(s2.(table := Table(rendered, MemberData(rendered)), tableLoadComplete := true));
    }
  }

  /** Sending a trade-table load clears both flags and nothing else. */
  lemma TableSendResets(engine: Engine, s: State, url: string)
    requires TableValid(s) && Classify(url) == TradeTable
    ensures Step(engine, s, Send(url)) == s.(tableLoadComplete := false, outgoingLoadComplete := false)
  {
  }

  /** The table's completion parses the rendered rows and sets its flag, then
      evaluates only if the outgoing fetch is already in. */
  lemma TableArrives(engine: Engine, s: State, url: string, rendered: seq<TradeRow>, response: Option<seq<OutgoingRow>>)
    requires TableValid(s) && Classify(url) == TradeTable
    ensures Step(engine, s, Complete(url, rendered, response))
         == ReloadComplete(s.(table := ParseTradeTable(s.table, rendered, s.autoMatch), tableLoadComplete := true))
  {
    assert Step(engine, s, Complete(url, rendered, response)) == OnComplete(s, url, rendered, response);
  }

  /** The outgoing fetch's completion records its response and sets its flag,
      then evaluates only if the table is already in. */
  lemma OutgoingArrives(engine: Engine, s: State, outUrl: string, rendered: seq<TradeRow>,
                        response: Option<seq<OutgoingRow>>)
    requires TableValid(s) && Classify(outUrl) == OutgoingFeed
    ensures Step(engine, s, Complete(outUrl, rendered, response))
         == ReloadComplete(s.(outgoingTrades := LoadOutgoingTrades(s.outgoingTrades, response), outgoingLoadComplete := true))
  {
    assert Step(engine, s, Complete(outUrl, rendered, response)) == OnComplete(s, outUrl, rendered, response);
  }

  /** Evaluating a freshly parsed table flags each member exactly by the rules. */
  lemma EvaluatedFresh(s: State)
    requires TableValid(s) && s.tableLoadComplete && s.outgoingLoadComplete
    requires s.table == Table(s.table.rows, MemberData(s.table.rows))
    ensures forall n :: n in ReloadComplete(s).table.members ==>
              FlaggedByRules(s.settings.alert, s.outgoingTrades, n, ReloadComplete(s).table.members[n])
  {
    var r := ReloadComplete(s);
    var e := Evaluate(s.settings, s.table, s.outgoingTrades);
    assert r.table == e.0 && r.settings == s.settings && r.outgoingTrades == s.outgoingTrades;
    forall n | n in r.table.members
      ensures FlaggedByRules(s.settings.alert, s.outgoingTrades, n, r.table.members[n])
    {
      assert AggregatesMember(s.table.members[n], s.table.rows, n);
      FreshMemberFlags(s.settings.alert, s.outgoingTrades, n, s.table.members[n]);
    }
  }

  // ----- Stopping -----

  /** Once stopped, with no reload timer alive, nothing but the Start button
      sets the engine running again, whichever `go` it runs: loads may still be
      evaluated, but no reload is ever scheduled. */
  lemma {:induction false} StoppedStaysStopped(engine: Engine, s: State, trace: seq<Event>)
    requires TableValid(s) && !s.running && s.liveTimers == 0
    requires forall k :: 0 <= k < |trace| ==> !trace[k].StartPressed?
    ensures !Run(engine, s, trace).running && Run(engine, s, trace).liveTimers == 0
    decreases |trace|
  {
    if |trace| > 0 {
      var next := Step(engine, s, trace[0]);
      assert !next.running && next.liveTimers == 0;
      StoppedStaysStopped(engine, next, trace[1..]);
    }
  }

  /** Before the Start button is first pressed the engine never runs and no
      reload is ever scheduled, whichever `go` the script uses. */
  lemma IdleUntilStart(engine: Engine, settings: Settings, autoMatch: bool, trace: seq<Event>)
    requires forall k :: 0 <= k < |trace| ==> !trace[k].StartPressed?
    ensures !Run(engine, Init(settings, autoMatch), trace).running
    ensures Run(engine, Init(settings, autoMatch), trace).liveTimers == 0
  {
    StoppedStaysStopped(engine, Init(settings, autoMatch), trace);
  }

  /** With the corrected `go`, Stop is final: from any state the engine can
      reach, Stop followed by anything but Start leaves it stopped. */
  lemma StopIsFinal(s: State, before: seq<Event>, after: seq<Event>)
    requires Valid(s)
    requires forall k :: 0 <= k < |after| ==> !after[k].StartPressed?
    ensures !Run(Corrected, Stop(Run(Corrected, s, before)), after).running
  {
    StoppedStaysStopped(Corrected, Stop(Run(Corrected, s, before)), after);
  }

  // ----- The reload handle dropped by go -----

  /** The presses of the finding: Start while a reload is pending, one
      trade-table load whose two requests complete, then Stop. */
  function StartLoadStop(inputs: PageInputs, url: string, rendered: seq<TradeRow>,
                         response: Option<seq<OutgoingRow>>): seq<Event>
  {
    [StartPressed(inputs), Send(url), Complete(url, rendered, None), Complete(OutgoingUrl, [], response), StopPressed]
  }

  /** The state those presses reach just before Stop. */
  function AfterLoad(engine: Engine, s: State, inputs: PageInputs, url: string, rendered: seq<TradeRow>,
                     response: Option<seq<OutgoingRow>>): (c: State)
    requires TableValid(s)
    ensures TableValid(c)
  {
    OnComplete(OnComplete(OnSend(GoBy(engine, s, inputs), url), url, rendered, None), OutgoingUrl, [], response)
  }

  /** As written, pressing Start while a reload is pending forgets the pending
      timer without clearing it. The load that follows schedules a second one,
      so two reloads are alive, and Stop cancels only the newer: a `go` stays
      scheduled after Stop and, when it fires, sets the engine running again. */
  lemma GoAsWrittenOrphansTimer(s: State, inputs: PageInputs, url: string,
                                rendered: seq<TradeRow>, response: Option<seq<OutgoingRow>>)
    requires Valid(s) && s.running && s.reloadTimeout
    requires Classify(url) == TradeTable
    ensures var trace := StartLoadStop(inputs, url, rendered, response);
            && !TimersValid(Run(Script, s, trace[..4]))
            && !Run(Script, s, trace).running
            && Run(Script, s, trace + [TimerFired(inputs)]).running
  {
    OutgoingUrlKind();
    var c := AfterLoad(Script, s, inputs, url, rendered, response);
    assert c.liveTimers == 2;
    RunFive(Script, s, inputs, url, rendered, response);
  }

  /** With the pending reload cleared first, the same presses leave one timer
      before Stop and none after it, and the engine stays stopped. */
  lemma GoClearsPendingReload(s: State, inputs: PageInputs, url: string,
                              rendered: seq<TradeRow>, response: Option<seq<OutgoingRow>>)
    requires Valid(s) && s.running && s.reloadTimeout
    requires Classify(url) == TradeTable
    ensures var trace := StartLoadStop(inputs, url, rendered, response);
            && TimersValid(Run(Corrected, s, trace[..4]))
            && !Run(Corrected, s, trace).running
            && !Run(Corrected, s, trace + [TimerFired(inputs)]).running
  {
    OutgoingUrlKind();
    var c := AfterLoad(Corrected, s, inputs, url, rendered, response);
    assert c.liveTimers == 1;
    RunFive(Corrected, s, inputs, url, rendered, response);
  }

  /** Unfolds `Run` over the five presses. */
  lemma RunFive(engine: Engine, s: State, inputs: PageInputs, url: string, rendered: seq<TradeRow>,
                response: Option<seq<OutgoingRow>>)
    requires TableValid(s)
    ensures var trace := StartLoadStop(inputs, url, rendered, response);
            var c := AfterLoad(engine, s, inputs, url, rendered, response);
            && Run(engine, s, trace[..4]) == c
            && Run(engine, s, trace) == Stop(c)
            && Run(engine, s, trace + [TimerFired(inputs)]) == FireTimer(engine, Stop(c), inputs)
  {
    var trace := StartLoadStop(inputs, url, rendered, response);
    var t := trace[..4];
    assert t == [StartPressed(inputs), Send(url), Complete(url, rendered, None), Complete(OutgoingUrl, [], response)];
    RunFour(engine, s, t);
    LoadSteps(engine, s, inputs, url, rendered, response);
    RunSnoc(engine, s, t, StopPressed);
    assert t + [StopPressed] == trace;
    RunSnoc(engine, s, trace, TimerFired(inputs));
  }

  /** The four load events step by step reach `AfterLoad`. */
  lemma LoadSteps(engine: Engine, s: State, inputs: PageInputs, url: string, rendered: seq<TradeRow>,
                  response: Option<seq<OutgoingRow>>)
    requires TableValid(s)
    ensures var s1 := Step(engine, s, StartPressed(inputs));
            var s2 := Step(engine, s1, Send(url));
            var s3 := Step(engine, s2, Complete(url, rendered, None));
            Step(engine, s3, Complete(OutgoingUrl, [], response)) == AfterLoad(engine, s, inputs, url, rendered, response)
  {
    var s1 := Step(engine, s, StartPressed(inputs));
    assert s1 == GoBy(engine, s, inputs);
    var s2 := Step(engine, s1, Send(url));
    assert s2 == OnSend(s1, url);
    var s3 := Step(engine, s2, Complete(url, rendered, None));
    assert s3 == OnComplete(s2, url, rendered, None);
    assert Step(engine, s3, Complete(OutgoingUrl, [], response)) == OnComplete(s3, OutgoingUrl, [], response);
  }

  /** `Run` over four events is four steps. */
  lemma RunFour(engine: Engine, s: State, t: seq<Event>)
    requires TableValid(s) && |t| == 4
    ensures Run(engine, s, t) == Step(engine, Step(engine, Step(engine, Step(engine, s, t[0]), t[1]), t[2]), t[3])
  {
    var s1 := Step(engine, s, t[0]);
    var s2 := Step(engine, s1, t[1]);
    var s3 := Step(engine, s2, t[2]);
    assert Run(engine, s3, t[3..]) == Step(engine, s3, t[3]) by { assert t[3..][1..] == []; }
    assert Run(engine, s2, t[2..]) == Run(engine, s3, t[3..]) by { assert t[2..][1..] == t[3..]; }
    assert Run(engine, s1, t[1..]) == Run(engine, s2, t[2..]) by { assert t[1..][1..] == t[2..]; }
  }

  /** Running one more event is one more step. */
  lemma {:induction false} RunSnoc(engine: Engine, s: State, trace: seq<Event>, e: Event)
    requires TableValid(s)
    ensures Run(engine, s, trace + [e]) == Step(engine, Run(engine, s, trace), e)
    decreases |trace|
  {
    if |trace| > 0 {
      assert (trace + [e])[1..] == trace[1..] + [e];
      RunSnoc(engine, Step(engine, s, trace[0]), trace[1..], e);
    }
  }
}

=== FILE: filtering.dfy ===
/**
 * filterTrades: hide low-value rows of members without an alert, count them,
 * and the table's "Total" label.
 */
module Filtering {
  import opened Trades

  /** Which rows the loop hides, and `filterQty`. */
  datatype Filtered = Filtered(hidden: seq<bool>, filterQty: nat)

  /** The value filter's test on one row. */
  predicate TooCheap(f: FilterSettings, row: TradeRow) {
    f.cardByValue && row.cardPts < f.minCardValue
  }

  /** Rows of alerted members are skipped; any other row is hidden exactly when
      the value filter rejects it, and `filterQty` counts the hidden rows. */
  function FilterTrades(f: FilterSettings, members: map<string, Member>, rows: seq<TradeRow>): (r: Filtered)
    requires Covers(members, rows)
    ensures |r.hidden| == |rows|
    ensures forall i :: 0 <= i < |rows| && members[rows[i].memberName].hasAlert ==> !r.hidden[i]
    ensures forall i :: 0 <= i < |rows| && !members[rows[i].memberName].hasAlert ==>
              (r.hidden[i] <==> TooCheap(f, rows[i]))
    ensures r.filterQty == multiset(r.hidden)[true]
    ensures r.filterQty <= |rows|
    decreases |rows|
  {
    if |rows| == 0 then Filtered([], 0)
    else
      var rest := FilterTrades(f, members, rows[1..]);
      var hideRow := !members[rows[0].memberName].hasAlert && TooCheap(f, rows[0]);
      FilterStep(f, members, rows, rest);
      Filtered([hideRow] + rest.hidden, rest.filterQty + (if hideRow then 1 else 0))
  }

  /** One iteration of the row loop, put in front of the result for the rows after it. */
  lemma FilterStep(f: FilterSettings, members: map<string, Member>, rows: seq<TradeRow>, rest: Filtered)
    requires |rows| > 0 && Covers(members, rows)
    requires |rest.hidden| == |rows| - 1
    requires forall i :: 0 <= i < |rows| - 1 && members[rows[1..][i].memberName].hasAlert ==> !rest.hidden[i]
    requires forall i :: 0 <= i < |rows| - 1 && !members[rows[1..][i].memberName].hasAlert ==>
               (rest.hidden[i] <==> TooCheap(f, rows[1..][i]))
    requires rest.filterQty == multiset(rest.hidden)[true]
    requires rest.filterQty <= |rows| - 1
    ensures var hideRow := !members[rows[0].memberName].hasAlert && TooCheap(f, rows[0]);
            var r := Filtered([hideRow] + rest.hidden, rest.filterQty + (if hideRow then 1 else 0));
            && |r.hidden| == |rows|
            && (forall i :: 0 <= i < |rows| && members[rows[i].memberName].hasAlert ==> !r.hidden[i])
            && (forall i :: 0 <= i < |rows| && !members[rows[i].memberName].hasAlert ==>
                  (r.hidden[i] <==> TooCheap(f, rows[i])))
            && r.filterQty == multiset(r.hidden)[true]
            && r.filterQty <= |rows|
  {
    var hideRow := !members[rows[0].memberName].hasAlert && TooCheap(f, rows[0]);
    var hidden := [hideRow] + rest.hidden;
    CountCons(hideRow, rest.hidden);
    forall i | 1 <= i < |rows|
      ensures hidden[i] == rest.hidden[i - 1] && rows[i] == rows[1..][i - 1]
    {
    }
  }

  /** Prepending one flag adds it to the count of `true`s. */
  lemma CountCons(b: bool, s: seq<bool>)
    ensures multiset([b] + s)[true] == multiset(s)[true] + (if b then 1 else 0)
  {
    assert multiset([b] + s) == multiset{b} + multiset(s);
  }

  /** The "Total" label: the rows left visible by the filter. */
  function VisibleTotal(f: FilterSettings, members: map<string, Member>, rows: seq<TradeRow>): (total: int)
    requires Covers(members, rows)
    ensures 0 <= total <= |rows|
    ensures total == multiset(FilterTrades(f, members, rows).hidden)[false]
  {
    var r := FilterTrades(f, members, rows);
    CountSplit(r.hidden);
    |rows| - r.filterQty
  }

  /** A sequence of booleans is made of its `true`s and its `false`s. */
  lemma {:induction false} CountSplit(s: seq<bool>)
    ensures multiset(s)[true] + multiset(s)[false] == |s|
    decreases |s|
  {
    if |s| > 0 {
      assert s == [s[0]] + s[1..];
      assert multiset(s) == multiset{s[0]} + multiset(s[1..]);
      CountSplit(s[1..]);
      if s[0] {
        assert multiset(s)[true] == multiset(s[1..])[true] + 1;
        assert multiset(s)[false] == multiset(s[1..])[false];
      } else {
        assert multiset(s)[true] == multiset(s[1..])[true];
        assert multiset(s)[false] == multiset(s[1..])[false] + 1;
      }
    }
  }

  /** A filter that is switched off hides nothing, whatever the members' alerts. */
  lemma FilterOffHidesNothing(f: FilterSettings, members: map<string, Member>, rows: seq<TradeRow>)
    requires Covers(members, rows)
    requires !f.cardByValue
    ensures FilterTrades(f, members, rows).filterQty == 0
    ensures VisibleTotal(f, members, rows) == |rows|
  {
    var r := FilterTrades(f, members, rows);
    assert forall i :: 0 <= i < |rows| ==> !r.hidden[i];
    assert true !in multiset(r.hidden);
  }

  /** Minimum 50: a 30-point card of a member without an alert is hidden and
      counted; a 10-point card of an alerted member stays. */
  lemma FilterExample()
    ensures var members := map["Dan" := Member(100, 1, 30, false, false, false),
                                "Eve" := Member(900, 1, 10, true, true, false)];
            var rows := [TradeRow("Dan", 100, "Opt", 30), TradeRow("Eve", 900, "Ponder", 10)];
            FilterTrades(FilterSettings(true, 50), members, rows) == Filtered([true, false], 1)
  {
  }
}

=== FILE: optional.dfy ===
/** An optional value: what the script expresses with `undefined`, `null` or `NaN`. */
module Optional {

  datatype Option<+T> = None | Some(value: T)
}

=== FILE: trades.dfy ===
/**
 * The records the rules engine works on: parsed trade-table rows, outgoing
 * rows, the per-member aggregates built from them, and the user's settings.
 */
module Trades {

  /** A CSS colour string, as entered in a colour picker. */
  type Color = string

  /** One row of the incoming trade table, already extracted and parsed.
      The row's position in the table stands for its DOM handle. */
  datatype TradeRow = TradeRow(memberName: string, memberPts: int, cardName: string, cardPts: int)

  /** One unshipped row of the outgoing trades listing. */
  datatype OutgoingRow = OutgoingRow(memberName: string, cardPts: int)

  /** A member's entry in `memberData`. */
  datatype Member = Member(
    memberPts: int,
    cardQty: nat,
    totalCardPts: int,
    hasAlert: bool,
    hasBundleAlert: bool,
    hasOutgoingAlert: bool)

  /** A member's entry in `outgoingTrades`. */
  datatype Outgoing = Outgoing(cardQty: nat, totalCardPts: int)

  datatype AlertSettings = AlertSettings(
    onBundle: bool,
    bundleThreshold: int,
    colorizeBundleRows: bool,
    colorizeBundleColor: Color,
    onOutgoing: bool,
    colorizeOutgoingRows: bool,
    colorizeOutgoingColor: Color)

  datatype FilterSettings = FilterSettings(cardByValue: bool, minCardValue: int)

  datatype Settings = Settings(reloadInterval: int, alert: AlertSettings, filter: FilterSettings)

  /** The built-in defaults. */
  const Defaults: Settings :=
    Settings(
      60,
      AlertSettings(true, 500, true, "#CCFF99", true, true, "#FFEBB5"),
      FilterSettings(false, 50))

  /** The invariant of every member entry: `hasAlert` is the disjunction of the two rule flags. */
  predicate FlagsConsistent(m: Member) {
    m.hasAlert == (m.hasBundleAlert || m.hasOutgoingAlert)
  }

  /** No flag set yet, as a freshly aggregated entry. */
  predicate FlagsClear(m: Member) {
    !m.hasAlert && !m.hasBundleAlert && !m.hasOutgoingAlert
  }

  /** The member names that occur in some rows. */
  function NameSet(rows: seq<TradeRow>): set<string> {
    set r | r in rows :: r.memberName
  }

  /** Every row's member has an entry; the lookups `memberData[row.memberName]` rely on it. */
  predicate Covers(members: map<string, Member>, rows: seq<TradeRow>) {
    forall i :: 0 <= i < |rows| ==> rows[i].memberName in members
  }

  lemma NameSetCovers(members: map<string, Member>, rows: seq<TradeRow>)
    requires members.Keys == NameSet(rows)
    ensures Covers(members, rows)
  {
    forall i | 0 <= i < |rows|
      ensures rows[i].memberName in members
    {
      assert rows[i] in rows;
    }
  }

  predicate Distinct<T(==)>(s: seq<T>) {
    forall i, j :: 0 <= i < j < |s| ==> s[i] != s[j]
  }

  /** `order` lists every key of `keys` exactly once, as a `for…in` loop visits them. */
  ghost predicate Enumerates(order: seq<string>, keys: set<string>) {
    Distinct(order) && forall n :: n in order <==> n in keys
  }
}

=== FILE: urls.dfy ===
/**
 * The URL tests of the `.ajaxSend` and `.ajaxComplete` handlers: a cascade
 * of `indexOf` checks, tried in order.
 */
module Urls {

  /** `sub` occurs in `s` starting at position `i`. */
  ghost predicate OccursAt(s: string, sub: string, i: int) {
    0 <= i && i + |sub| <= |s| && s[i..i + |sub|] == sub
  }

  lemma ShiftOccurrence(s: string, sub: string)
    requires |s| >= |sub| && s[..|sub|] != sub
    ensures (exists i :: OccursAt(s, sub, i)) <==> (exists j :: OccursAt(s[1..], sub, j))
  {
    forall i | OccursAt(s, sub, i)
      ensures OccursAt(s[1..], sub, i - 1)
    {
      assert i != 0;
      assert s[1..][i - 1..i - 1 + |sub|] == s[i..i + |sub|];
    }
    forall j | OccursAt(s[1..], sub, j)
      ensures OccursAt(s, sub, j + 1)
    {
      assert s[1..][j..j + |sub|] == s[j + 1..j + 1 + |sub|];
    }
  }

  /** `s.indexOf(sub) !== -1`. */
  function Contains(s: string, sub: string): (r: bool)
    ensures r <==> exists i :: OccursAt(s, sub, i)
    decreases |s|
  {
    if |s| < |sub| then false
    else if s[..|sub|] == sub then (assert OccursAt(s, sub, 0); true)
    else (ShiftOccurrence(s, sub); Contains(s[1..], sub))
  }

  /** What a request is to the handlers. */
  datatype UrlKind =
    | OutgoingFeed    // `/trades/active`: our own loadOutgoingTrades
    | TradesSubpage   // anything else under `/trades/`: dialogs, ignored
    | TradeTable      // `/trades` otherwise: a (re)load of the trade table
    | Unrelated

  const OutgoingUrl := "/trades/active"

  /** The handlers' cascade. Because each pattern extends the next, the
      first match is simply the longest pattern the URL contains. */
  function Classify(url: string): (r: UrlKind)
    ensures r == OutgoingFeed <==> Contains(url, "/trades/active")
    ensures r == TradesSubpage <==> Contains(url, "/trades/") && !Contains(url, "/trades/active")
    ensures r == TradeTable <==> Contains(url, "/trades") && !Contains(url, "/trades/")
    ensures r == Unrelated <==> !Contains(url, "/trades")
  {
    NestedPatterns(url);
    if Contains(url, "/trades/active") then OutgoingFeed
    else if Contains(url, "/trades/") then TradesSubpage
    else if Contains(url, "/trades") then TradeTable
    else Unrelated
  }

  /** The request loadOutgoingTrades issues is recognised as the outgoing feed. */
  lemma OutgoingUrlKind()
    ensures Classify(OutgoingUrl) == OutgoingFeed
  {
    assert OccursAt(OutgoingUrl, "/trades/active", 0);
  }

  /** A URL containing `/trades/active` contains `/trades/`, and one
      containing `/trades/` contains `/trades`. */
  lemma NestedPatterns(url: string)
    ensures Contains(url, "/trades/active") ==> Contains(url, "/trades/")
    ensures Contains(url, "/trades/") ==> Contains(url, "/trades")
  {
    if Contains(url, "/trades/active") {
      var i :| OccursAt(url, "/trades/active", i);
      assert url[i..i + 8] == url[i..i + 14][..8];
      assert OccursAt(url, "/trades/", i);
    }
    if Contains(url, "/trades/") {
      var i :| OccursAt(url, "/trades/", i);
      assert url[i..i + 7] == url[i..i + 8][..7];
      assert OccursAt(url, "/trades", i);
    }
  }

  /** A plain or searched table reload (`/trades`, `/trades?search=str`) is
      recognised as a trade-table load. */
  lemma TableUrlKind(query: string)
    requires forall k :: 0 <= k < |query| ==> query[k] != '/'
    ensures Classify("/trades" + query) == TradeTable
  {
    var url := "/trades" + query;
    assert OccursAt(url, "/trades", 0) by {
      assert url[0..7] == "/trades";
    }
    forall i | 0 <= i && i + 8 <= |url|
      ensures !OccursAt(url, "/trades/", i)
    {
      assert url[i..i + 8][7] == query[i];
    }
    forall i | 0 <= i && i + 14 <= |url|
      ensures !OccursAt(url, "/trades/active", i)
    {
      assert url[i..i + 14][7] == query[i];
    }
  }
}
